=== FILE: README.md ===
# UIKIT animate, modelled in Dafny

The UIKIT animate module opens, closes and toggles page elements by stepping
their height (or width) from the current size to a target size with a
repeating timer. This project models its core, `packages/animate/src/js/module.js`,
in four Dafny modules:

- `SpecCalculator` (`spec_calculator.dfy`) — `CalculateAnimationSpecs`: from
  the initial size, the end size and the duration it derives the pixels per
  tick (`stepSize`), the ticks left after the first (`steps`, the raw count
  minus one) and the timer period. It uses one-pixel steps unless their period
  would be under 50/3 ms (60 fps). In that case it recomputes the step as
  round((50/3) / period), which can still be 1.
  JavaScript numbers are exact reals here; `Math.round(x)` is `(x + 0.5).Floor`;
  an infinite period (a division by a zero step count) is `Interval.Infinite`.
- `Animation` (`animation.dfy`) — `Stop`, `Run`, the state assignment before
  each timer starts, the timer body as the step function `TickElement`, and
  the completion counter shared by the elements of one `Run` (`Tick`, `Play`).
  Its batch gives every element a closure of its own. That is the evidently
  intended behaviour (see Findings), and it is what the code does for a
  one-element batch.
  The DOM is reduced to a `Probe` (the size the element reports and its
  natural `'auto'` size, taken as inputs) and a `Node` (the inline style, the
  toggle state, and whether a timer is live). The event loop's interleaving of
  one batch's timers is an arbitrary schedule of element indices.
- `SharedClosure` (`shared_closure.dfy`) — the batch of `Run` as written. The
  closure variables are `var`s of the whole function, so every timer of a
  batch runs the last element's closure. This module proves the consequences
  and shows that it agrees with `Animation` on one-element batches.
- `Toggle` (`toggle.dfy`) — `Toggle`'s option defaults and its choice between
  the open and the close size. Each element then runs as a batch of its own,
  so `Animation`'s batch is exact there (`SharedClosure.OneElementAgrees`).

## Behaviour of the code as written

The model follows the code, including where its comments or its apparent
intent promise more:

- The comment at line 38 suggests the correction keeps the period at or
  above 50/3 ms. It does not: the corrected period can still be under it.
  36 px in 250 ms gives 2 px steps, 18 raw steps and 250/18 ms
  (`SpecCalculator.CorrectedIntervalBelowFloor`).
  No interval floor is claimed.
- A zero distance gives step +1, so the element is marked `'opening'`. Its
  first tick finishes it. The step size is never zero for any non-zero
  duration, so the `throw` in `Run` is unreachable.
- When the coarse step is longer than a positive distance, the floored step
  count is 0 and the reported count is -1. Nothing clamps it, and the
  `steps === 0` test never succeeds. A lone element with that count animates
  forever, and its batch never calls back (`Animation.NegativeStepsNeverFinish`).
  In a batch of two or more, only the last element's count is ever consulted.
  The batch stalls whenever that count is -1 for a non-zero distance,
  whatever the other elements report (`SharedClosure.SharedStalls`). A last
  element with a zero distance finishes on its first tick, even though its
  count is -1 too. When the last element can finish, the counter does move
  (`SharedClosure.LastFinishes`).
- The `throw` in `Run` would abandon the elements after the failing one,
  because it leaves the `for` loop. The model keeps that control flow, even
  though the branch is dead.
- `Toggle`'s `else if` condition always holds when it is reached, so its
  `throw` is dead too.
- `options.openSize || 'auto'` also turns an open size of 0 into `'auto'`.

## Model

| member | source | states |
|---|---|---|
| SpecCalculator.Floor | packages/animate/src/js/module.js:41 | `Math.floor`: the greatest integer at or below its argument |
| SpecCalculator.Round | packages/animate/src/js/module.js:40 | `Math.round`: the integer in (x - 1/2, x + 1/2], so halves round towards +infinity |
| SpecCalculator.Calculate | packages/animate/src/js/module.js:31-51 | the step size is never zero for a non-zero duration, and the reported step count is at least -1 |
| SpecCalculator.IntervalFor | packages/animate/src/js/module.js:36 | the period is infinite exactly for a zero step count; otherwise the period times the step count is the duration |
| SpecCalculator.CoarseStep | packages/animate/src/js/module.js:39-40 | when the correction applies, the rounded coarse step is never zero, and it is at least one for a positive duration |
| SpecCalculator.StepFollowsDistance | packages/animate/src/js/module.js:34-42 | for a positive duration the step is positive exactly when the end is at or above the start and negative exactly when below; a zero distance gives step +1, reported count -1 and an infinite period |
| SpecCalculator.UnitStepWithoutCorrection | packages/animate/src/js/module.js:32-36 | without correction, the step magnitude is 1, raw steps equal the distance's magnitude, raw steps times step equals the distance, and the period is at least 50/3 ms |
| SpecCalculator.CoarseStepWithCorrection | packages/animate/src/js/module.js:39-43 | with correction, the step magnitude is round((50/3) / unit period) and at least 1, the raw count is the magnitude of floor(distance / step), and the period is the duration over that count |
| SpecCalculator.CorrectedStepsBracketDistance | packages/animate/src/js/module.js:41-42 | after correction, raw steps times step magnitude is at most a positive distance and at least the magnitude of a negative one, missing it by less than one step in both cases |
| SpecCalculator.TravelEndsNearTarget | packages/animate/src/js/module.js:34-43 | the initial size plus raw steps times step equals the end size without correction, and otherwise lies within one step below the end size |
| SpecCalculator.NoRawStepsIff | packages/animate/src/js/module.js:41-48 | for a non-zero distance the reported count is -1 exactly when the correction applies and a positive distance is shorter than the coarse step |
| SpecCalculator.OpeningHundredPixels | packages/animate/src/js/module.js:31-51 | 0 to 100 px in 250 ms gives step 7, reported count 13 and period 250/14 ms, which is at least 50/3 |
| SpecCalculator.CorrectedIntervalBelowFloor | packages/animate/src/js/module.js:38-44 | 0 to 36 px in 250 ms gives step 2, reported count 17 and period 250/18 ms, which is under 50/3 |
| SpecCalculator.CorrectionKeepsUnitStep | packages/animate/src/js/module.js:38-44 | 0 to 10 px in 150 ms needs the correction, yet the recomputed step is still 1, with reported count 9 and period 15 ms, under 50/3 |
| SpecCalculator.ShortDistanceNoSteps | packages/animate/src/js/module.js:39-48 | 0 to 1 px in 10 ms gives step 2, reported count -1 and an infinite period |
| Animation.Elements | packages/animate/src/js/module.js:112-115 | a lone element becomes a one-element list; a list is kept as it is |
| Animation.DefaultSpeed | packages/animate/src/js/module.js:110 | a missing or zero duration becomes 250 ms, any other is kept, and the result is never zero |
| Animation.Stop | packages/animate/src/js/module.js:91-93 | after stopping no timer is live, and the style and toggle state are unchanged |
| Animation.StopIdempotent | packages/animate/src/js/module.js:91-93 | stopping twice is stopping once, and stopping an element with no live timer changes nothing |
| Animation.StateFor | packages/animate/src/js/module.js:145-153 | the assignment fails exactly for a zero step; otherwise it is `'closing'` exactly for a negative step and never idle |
| Animation.Start | packages/animate/src/js/module.js:128-156 | starting one element never fails; its timer is live, its state follows the step, and the closure holds the computed size, the resolved end size, the spec and a counter at the initial size |
| Animation.StartAll | packages/animate/src/js/module.js:127-156 | the loop stops, measures, states and starts every element in order without failing, one animation per element, each with the closure values of its own iteration |
| Animation.Run | packages/animate/src/js/module.js:107-187 | corrected definition, one closure per element: `Run` fails exactly on an empty element list; otherwise every element is animating, the counter is 0, the element count is the list length, and no callback has run |
| Animation.ClosureBody | packages/animate/src/js/module.js:157-183 | the timer body on the node and closure variables it refers to: the counter always moves by one step; the run is terminal exactly when start equals end or no steps remain; a terminal run clears the interval, snaps to the end size (or `''` for `'auto'`), resets the state to idle and keeps the step count; any other run writes the new position and uses up one step; nothing else in the closure changes |
| Animation.TickElement | packages/animate/src/js/module.js:156-185 | a stopped element's tick changes nothing; a live tick moves the counter by one step; it is terminal exactly when start equals end or no steps remain; a terminal tick stops the timer, snaps the style to the end size (or `''` for `'auto'`) and resets the state to idle; any other tick writes the position and uses up one step |
| Animation.StoppedStaysPut | packages/animate/src/js/module.js:162 | once its timer is cleared, further ticks leave an element unchanged |
| Animation.ElementProgress | packages/animate/src/js/module.js:157-158 | after k ticks, for k up to the reported count of a non-zero distance, the element is still animating at its start plus k steps, shows that position, and has k fewer steps left |
| Animation.ElementFinishes | packages/animate/src/js/module.js:161-172 | an element with a non-negative reported count s finishes on exactly its (s+1)-th tick; a zero-distance element finishes on its first tick; it is then stopped, at its final style, idle, and nothing moves it afterwards |
| Animation.NegativeStepsNeverFinish | packages/animate/src/js/module.js:161-182 | with a negative reported count and a non-zero distance, the element is still animating after any number of ticks, its count decreasing by one per tick |
| Animation.Tick | packages/animate/src/js/module.js:161-177 | corrected definition, one closure per element: a tick changes only its own element; a terminal tick adds one to the shared counter and calls back when the counter reaches the element count |
| Animation.FreshIsConsistent | packages/animate/src/js/module.js:123-124 | a batch `Run` has just created satisfies the counter invariant |
| Animation.TickKeepsConsistent | packages/animate/src/js/module.js:167-177 | corrected definition: every tick keeps the counter equal to the number of finished elements; the callback fires on the tick that finishes the last element, and on no other |
| Animation.PlayKeepsConsistent | packages/animate/src/js/module.js:123-177 | corrected definition: under any interleaving the counter equals the finished elements, the callback has run at most once, and it has run exactly when all elements have finished; each element is where its own ticks alone put it |
| Animation.BatchCompletes | packages/animate/src/js/module.js:123-177 | corrected definition: if every element can finish and the schedule fires each one often enough, the counter reaches the element count and the callback has run exactly once |
| Animation.BatchStalls | packages/animate/src/js/module.js:161-176 | corrected definition: a batch holding an element that never finishes never calls back, whatever the schedule |
| Animation.RunTrajectory | packages/animate/src/js/module.js:140-182 | corrected definition: in a batch started by `Run`, under any schedule, an element that has fired k times (k up to its reported count) is animating at its computed size plus k steps, with k fewer steps left |
| Animation.StartedState | packages/animate/src/js/module.js:145-150 | for a positive duration a started element is `'opening'` exactly when its end is at or above its start, and `'closing'` exactly when below |
| Animation.LastWriteBeforeSnap | packages/animate/src/js/module.js:157-164 | the last position written before the snap equals the end size after unit steps; otherwise it lies less than one step short of the end (opening) or past it (closing) |
| SharedClosure.RunShared | packages/animate/src/js/module.js:107-156 | as written: `Run` fails exactly on an empty list; otherwise each element is stopped, stated and started as on its own, and the one closure all timers share holds the last element's track |
| SharedClosure.TickShared | packages/animate/src/js/module.js:156-177 | as written: a stopped timer's tick changes nothing; a live timer of any element runs the last element's closure, so it writes or stops only the last element and moves the shared counter, never another element |
| SharedClosure.PlayAppend | packages/animate/src/js/module.js:156-177 | firing two schedules in turn is firing their concatenation |
| SharedClosure.OthersUntouched | packages/animate/src/js/module.js:156-177 | as written, under any schedule, every element but the last is left as `Run` left it, and the callback count is the number of terminal ticks at or past the element count |
| SharedClosure.RunLeavesOthersAnimating | packages/animate/src/js/module.js:127-177 | as written, every element of a `Run` batch but the last stays animating, never idle, and its style is never written, whatever the schedule |
| SharedClosure.CallbackEveryTick | packages/animate/src/js/module.js:161-177 | as written, once the shared closure has ended, each tick of another element's uncleared timer counts again and calls back again past the element count |
| SharedClosure.LastAlone | packages/animate/src/js/module.js:156-164 | as written, the last element's own ticks, up to its reported count, move it and the shared closure exactly as its own interval would, without counting |
| SharedClosure.LastFinishes | packages/animate/src/js/module.js:161-177 | as written, ticking the last element until its own interval would end stops it, ends the shared closure and counts once |
| SharedClosure.CallbackRepeats | packages/animate/src/js/module.js:156-185 | as written, with two or more elements, after the last one ends, m ticks of the first count m more times; the callback runs more than once when m reaches the element count, and the first element is never touched |
| SharedClosure.LeftoverTickStopsRestart | packages/animate/src/js/module.js:156-165 | as written, once the shared closure has ended, a leftover interval's tick stops the last element, snaps it to the old final style and resets its state, even after a later animation restarted it |
| SharedClosure.SharedStalls | packages/animate/src/js/module.js:161-176 | as written, a batch whose last element reports -1 for a non-zero distance never counts or calls back, whatever the other elements report |
| SharedClosure.TwoElementsCallBackTwice | packages/animate/src/js/module.js:128-185 | two elements opening 0 to 100 px in 250 ms: 14 ticks of the second and 2 of the first call back twice, and the first is still `'opening'`, animating and unwritten |
| SharedClosure.OneElementAgrees | packages/animate/src/js/module.js:128-185 | for one element, the code as written and the per-element model give the same batch after any schedule |
| SharedClosure.OneElementRunAgrees | packages/animate/src/js/module.js:107-156 | for one element, `Run` as written and the per-element `Run` start the same batch |
| Toggle.PropertyOf | packages/animate/src/js/module.js:203 | a missing or empty property becomes `'height'`, any other is kept |
| Toggle.CloseSizeOf | packages/animate/src/js/module.js:205 | a missing close size becomes 0, any other is kept |
| Toggle.OpenSizeOf | packages/animate/src/js/module.js:206 | a missing or zero open size becomes `'auto'`, any other is kept |
| Toggle.Defaults | packages/animate/src/js/module.js:203-206 | with no options the property is height, the duration 250 ms, the close size 0 and the open size `'auto'` |
| Toggle.Target | packages/animate/src/js/module.js:227-235 | the decision never reaches the `throw`; it targets the open size when the element is at its close size or closing, and the close size otherwise |
| Toggle.ToggleOne | packages/animate/src/js/module.js:220-244 | toggling one element never fails and yields a batch of exactly one element |
| Toggle.ToggleAll | packages/animate/src/js/module.js:218-246 | the loop yields one batch per element, in order, without failing |
| Toggle.ToggleElements | packages/animate/src/js/module.js:200-247 | `Toggle` never fails and yields as many batches as elements, none for an empty list |
| Toggle.ToggleBatches | packages/animate/src/js/module.js:237-244 | each toggled element is a fresh one-element batch with the defaulted property, animating toward the target the decision picks |
| Toggle.CallbackPerElement | packages/animate/src/js/module.js:238-244 | each toggled element's batch calls back at most once, and exactly when that element has finished |
| Toggle.ToggleReverses | packages/animate/src/js/module.js:227-232 | toggling an element at its close size targets the open size; once that animation finishes, the element is idle, so toggling it from any other size targets the close size |

## Left out

- `CalculateAuto`, `getComputedStyle`, `clientHeight`/`clientWidth` and
  inline-style writes are DOM operations. The measured and natural sizes are
  inputs (`Probe`), and the style is a field of `Node`. A probe is a
  snapshot: the model does not feed style writes back into later measurements.
- `setInterval`/`clearInterval` and event-loop timing are left out. A tick is
  the step function `TickElement`, and the interleaving is an arbitrary
  schedule. The period is computed (`Interval`), but timing is not modelled,
  and neither is the sign of an infinite period.
- JavaScript numerics are left out: IEEE rounding, `NaN` from `parseInt`,
  and non-numeric options. Sizes are integers and durations exact reals.
- The callback's return value, which the timer discards, is left out. The
  replacement of a missing callback with a no-op is also left out. Only the
  number of callback invocations is modelled.
- The `'px'` string formatting and the global `UIKIT` namespace object are
  left out.
- `Toggle` reads the current size through `options.property`, not through
  the defaulted property. When no property is given, the read is
  `parseInt(undefined)`, which is `NaN`. `NaN` is never equal to the close
  size, so an element that is not closing is then always sent to the close
  size, even when it is already closed. This is left out: the current size is an input of
  `Toggle.Target`.
- The counter lives on `elements[0]`, so two overlapping `Run` calls that
  share a first element reset each other's counter. The same element listed
  twice in one batch stops its own first timer. Both are left out: each batch
  owns its counter, and the elements of a batch are distinct.
- State across batches is not modelled. After a `Run` over two or more
  elements, the intervals of all elements but the last are never cleared,
  and they keep running the old closure. If a later `Run` or `Toggle` restarts
  that last element, the next leftover tick clears the new interval
  (`Stop` reads `element.UIKITanimation` when it is called). The same tick
  also snaps the element back to the old end size and resets its state. The
  restarted animation then never finishes, and its callback never runs. Only
  the single tick is modelled (`SharedClosure.LeftoverTickStopsRestart`).
- The lemmas about direction, correction and bounds assume a positive
  duration. `Calculate` itself accepts any non-zero duration. A negative
  duration reverses the step's direction under correction, and no lemma
  covers it.

## Findings

| source | as written | input that shows it | evidently intended | confidence | as-written member | corrected member |
|---|---|---|---|---|---|---|
| packages/animate/src/js/module.js:128-185 | `element`, `initialSize`, `endSize`, `animationSpecs` and `iterateCounter` are `var`s of `Run`, so every timer runs the last element's closure; the other elements are never written and their intervals are never cleared, so they go on stopping and snapping the last element even after a later `Run` or `Toggle` restarts it (`SharedClosure.LeftoverTickStopsRestart`) | `Run([e0, e1], 100, 'height', 250)` from 0 px, with 14 ticks of e1's timer and then 2 of e0's: the callback runs twice and e0 stays `'opening'` and unwritten (`SharedClosure.TwoElementsCallBackTwice`) | each element animates by its own closure, and the callback runs once, when the last element finishes | not executed | SharedClosure.CallbackRepeats | Animation.BatchCompletes |

=== FILE: animation.dfy ===
/**
 The animation controller of the UIKIT animate module: `Stop`, `Run`, the
 body of the repeating timer `Run` starts per element, and the completion
 counter all elements of one `Run` share.

 This module gives every element its own timer closure, the behaviour the
 code evidently intends. As written, the closures of one `Run` share the
 variables of its last loop iteration; module `SharedClosure` models that,
 and proves that both agree on one-element batches, which are all that
 `Toggle` starts.

 The DOM is reduced to what the animation reads and writes. A `Probe` is
 what `Run` measures on an element (its computed size and, for an `'auto'`
 target, its natural size); a `Node` holds what the animation writes onto
 the element (the inline style of the animated property, the toggle state,
 whether a timer is live). A timer tick is the explicit step function
 `TickElement`; the event loop's interleaving of the timers of one batch is
 an arbitrary schedule of element indices played by `Play`.
 */
module Animation {
  import opened SpecCalculator

  /** `element.UIKITtoggleState`: `''` (or never set), `'opening'`, `'closing'`. */
  datatype ToggleState = Idle | Opening | Closing

  /** The inline style of the animated property: `''` or a pixel length. */
  datatype Style = Unset | Pixels(px: int)

  /** A size option: a pixel count or the `'auto'` sentinel. */
  datatype Size = Fixed(px: int) | Auto

  /** What the animation stores on a DOM element. `animating` is true while
      `element.UIKITanimation` names a live interval. */
  datatype Node = Node(style: Style, toggle: ToggleState, animating: bool)

  /** An element as `Run` finds it: its node, the size `getComputedStyle`
      reports for the property, and the size it takes at `'auto'`. */
  datatype Probe = Probe(node: Node, computed: int, natural: int)

  /** The variables the timer closure of one element captures:
      `initialSize`, the resolved `endSize`, whether `options.endSize` was
      `'auto'`, the spec's `stepSize` and remaining `steps`, and
      `iterateCounter`. */
  datatype Track = Track(initial: int, end: int, toAuto: bool, stepSize: int, steps: int, counter: int)

  /** One element of a running batch. */
  datatype Animated = Animated(node: Node, track: Track)

  /** One `Run` call: its elements, the shared counter kept on the first
      element (`UIKITinteration`), the element count (`UIKITinterations`),
      how many times the callback has been invoked, and the property. */
  datatype Batch = Batch(items: seq<Animated>, completed: nat, expected: nat, callbacks: nat, property: string)

  /** An option that may be missing. */
  datatype Option<T> = None | Some(value: T)

  /** A value, or the exception that replaced it. */
  datatype Result<T, E> = Ok(value: T) | Err(error: E)

  /** The exceptions `Run` can raise. */
  datatype Error =
    | CannotDetermineState   // the `throw` of Run for a zero step size
    | NoElements             // `elements[0]` is undefined for an empty list

  /** `options.element`: one element, or a list of them. */
  datatype Targets = One(probe: Probe) | Many(probes: seq<Probe>)

  /** A lone element is made iterable as a one-element list. */
  function Elements(t: Targets): (r: seq<Probe>)
    ensures t.One? ==> r == [t.probe]
    ensures t.Many? ==> r == t.probes
  {
    match t
    case One(p) => [p]
    case Many(ps) => ps
  }

  /** `options.speed || 250`: a missing or zero duration means 250 ms. */
  function DefaultSpeed(speed: Option<real>): (r: real)
    ensures r != 0.0
    ensures speed.None? || speed.value == 0.0 ==> r == 250.0
    ensures speed.Some? && speed.value != 0.0 ==> r == speed.value
  {
    if speed.None? || speed.value == 0.0 then 250.0 else speed.value
  }

  /** `Stop`: clears the element's interval; nothing else changes. */
  function Stop(n: Node): (r: Node)
    ensures !r.animating
    ensures r.(animating := n.animating) == n
  {
    n.(animating := false)
  }

  /** Stopping twice is stopping once, and stopping an element with no live
      animation changes nothing. */
  lemma StopIdempotent(n: Node)
    ensures Stop(Stop(n)) == Stop(n)
    ensures !n.animating ==> Stop(n) == n
  {
  }

  /** The state assignment before the timer starts: a negative step closes, a
      positive one opens, and a zero step throws. */
  function StateFor(stepSize: int): (r: Result<ToggleState, Error>)
    ensures r.Err? <==> stepSize == 0
    ensures r.Ok? ==> (r.value == Closing <==> stepSize < 0) && r.value != Idle
  {
    if stepSize < 0 then Ok(Closing)
    else if stepSize > 0 then Ok(Opening)
    else Err(CannotDetermineState)
  }

  /** The style the terminal tick leaves: the end size, or `''` when the
      target was `'auto'` so that CSS takes over. */
  function FinalStyle(t: Track): Style
  {
    if t.toAuto then Unset else Pixels(t.end)
  }

  /** The loop body of `Run` for one element: stop it, resolve the target,
      compute the spec, set the state and start its timer. */
  function Start(p: Probe, endSize: Size, speed: real): (r: Result<Animated, Error>)
    requires speed != 0.0
    ensures r.Ok?
    ensures var end := if endSize.Auto? then p.natural else endSize.px;
      var spec := Calculate(p.computed, end, speed);
      && r.value.node == Node(p.node.style, if spec.stepSize < 0 then Closing else Opening, true)
      && r.value.track == Track(p.computed, end, endSize.Auto?, spec.stepSize, spec.steps, p.computed)
  {
    var stopped := Stop(p.node);
    var end := if endSize.Auto? then p.natural else endSize.px;
    var spec := Calculate(p.computed, end, speed);
    match StateFor(spec.stepSize)
    case Err(e) => Err(e)
    case Ok(state) =>
      Ok(Animated(stopped.(toggle := state, animating := true),
                  Track(p.computed, end, endSize.Auto?, spec.stepSize, spec.steps, p.computed)))
  }

  /** The `for` loop of `Run`: starts every element in order; a throw would
      abandon the elements after it. */
  function StartAll(ps: seq<Probe>, endSize: Size, speed: real): (r: Result<seq<Animated>, Error>)
    requires speed != 0.0
    ensures r.Ok?
    ensures |r.value| == |ps|
    ensures forall i :: 0 <= i < |ps| ==> r.value[i] == Start(ps[i], endSize, speed).value
  {
    if |ps| == 0 then Ok([])
    else
      match Start(ps[0], endSize, speed)
      case Err(e) => Err(e)
      case Ok(a) =>
        match StartAll(ps[1..], endSize, speed)
        case Err(e) => Err(e)
        case Ok(rest) => Ok([a] + rest)
  }

  /** A batch as `Run` leaves it: every element animating, nothing counted,
      no callback yet. */
  ghost predicate Fresh(b: Batch)
  {
    && |b.items| > 0
    && b.expected == |b.items|
    && b.completed == 0
    && b.callbacks == 0
    && forall i :: 0 <= i < |b.items| ==> b.items[i].node.animating
  }

  /** `Run`. It fails only on an empty element list; the throw for a zero
      step size is unreachable, since the calculator never yields one. */
  function Run(targets: Targets, endSize: Size, property: string, speed: Option<real>): (r: Result<Batch, Error>)
    ensures r.Err? <==> |Elements(targets)| == 0
    ensures r.Err? ==> r.error == NoElements
    ensures r.Ok? ==> Fresh(r.value) && r.value.property == property
    ensures r.Ok? ==> |r.value.items| == |Elements(targets)|
    ensures r.Ok? ==> forall i :: 0 <= i < |Elements(targets)| ==>
      r.value.items[i] == Start(Elements(targets)[i], endSize, DefaultSpeed(speed)).value
  {
    var ps := Elements(targets);
    if |ps| == 0 then Err(NoElements)
    else
      match StartAll(ps, endSize, DefaultSpeed(speed))
      case Err(e) => Err(e)
      case Ok(items) => Ok(Batch(items, 0, |ps|, 0, property))
  }

  // ----- One element's timer ---------------------------------------------------

  /** The closure has reached its end: start and end coincide, or no steps
      remain. Every further run of it is terminal. */
  predicate AtEnd(t: Track)
  {
    t.initial == t.end || t.steps == 0
  }

  /** The body of the timer closure, run on the node and closure variables it
      refers to: advance the counter and write it; at the end, clear the
      interval, snap to the final style and reset the state; otherwise use up
      one step. The flag says whether this run was terminal. */
  function ClosureBody(n: Node, t: Track): (r: (Node, Track, bool))
    ensures r.2 <==> AtEnd(t)
    ensures r.2 ==> r.0 == Node(FinalStyle(t), Idle, false) && r.1.steps == t.steps
    ensures !r.2 ==> r.0 == n.(style := Pixels(r.1.counter)) && r.1.steps == t.steps - 1
    ensures r.1.counter == t.counter + t.stepSize
    ensures r.1.(steps := t.steps, counter := t.counter) == t
  {
    var t' := t.(counter := t.counter + t.stepSize);
    if AtEnd(t) then
      (Node(FinalStyle(t), Idle, false), t', true)
    else
      (n.(style := Pixels(t'.counter)), t'.(steps := t.steps - 1), false)
  }

  /** One tick of an element's interval, and whether it was the terminal tick.
      A stopped element's interval never fires again, so its tick changes
      nothing. */
  function TickElement(a: Animated): (r: (Animated, bool))
    ensures !a.node.animating ==> r == (a, false)
    ensures r.1 <==> a.node.animating && AtEnd(a.track)
    ensures r.1 ==> r.0.node == Node(FinalStyle(a.track), Idle, false)
    ensures a.node.animating && !r.1 ==>
      && r.0.node.animating && r.0.node.toggle == a.node.toggle
      && r.0.node.style == Pixels(r.0.track.counter)
      && r.0.track.steps == a.track.steps - 1
    ensures a.node.animating ==> r.0.track.counter == a.track.counter + a.track.stepSize
    ensures r.0.track.(steps := a.track.steps, counter := a.track.counter) == a.track
  {
    if !a.node.animating then (a, false)
    else
      var (n, t, terminal) := ClosureBody(a.node, a.track);
      (Animated(n, t), terminal)
  }

  /** The element after `k` ticks of its interval. */
  function TickN(a: Animated, k: nat): Animated
    decreases k
  {
    if k == 0 then a else TickN(TickElement(a).0, k - 1)
  }

  /** Once stopped, further ticks change nothing. */
  lemma {:induction false} StoppedStaysPut(a: Animated, k: nat)
    requires !a.node.animating
    ensures TickN(a, k) == a
  {
    if k > 0 {
      StoppedStaysPut(TickElement(a).0, k - 1);
    }
  }

  /** Before its terminal tick an element moves one step per tick: after `k`
      ticks with `k` at most the reported step count it is still animating,
      has moved `k` steps, shows that position, and has `k` fewer steps left. */
  lemma {:induction false} ElementProgress(a: Animated, k: nat)
    requires a.node.animating && a.track.initial != a.track.end
    requires k <= a.track.steps
    ensures var b := TickN(a, k);
      && b.node.animating
      && b.node.toggle == a.node.toggle
      && b.track.counter == a.track.counter + k * a.track.stepSize
      && b.track.steps == a.track.steps - k
      && (k > 0 ==> b.node.style == Pixels(b.track.counter))
      && b.track.(steps := a.track.steps, counter := a.track.counter) == a.track
    decreases k
  {
    if k > 0 {
      var a' := TickElement(a).0;
      ElementProgress(a', k - 1);
    }
  }

  /** The number of ticks an element with a reported count `s` takes: one for a
      zero distance, `s + 1` otherwise. */
  function TicksToFinish(t: Track): int
  {
    if t.initial == t.end then 1 else t.steps + 1
  }

  /** An element that can finish does so on exactly its `TicksToFinish`-th
      tick: it is animating before, and after it is stopped, snapped to its
      final style, idle, and has counted `TicksToFinish` steps. */
  lemma {:induction false} ElementFinishes(a: Animated, k: nat)
    requires a.node.animating
    requires a.track.initial == a.track.end || a.track.steps >= 0
    ensures var n := TicksToFinish(a.track);
      && n >= 1
      && (k < n ==> TickN(a, k).node.animating)
      && (k >= n ==> TickN(a, k) == TickN(a, n))
      && TickN(a, n).node == Node(FinalStyle(a.track), Idle, false)
      && TickN(a, n).track.counter == a.track.counter + n * a.track.stepSize
      && !TickElement(TickN(a, n - 1)).0.node.animating
  {
    var n := TicksToFinish(a.track);
    if a.track.initial == a.track.end {
      assert TickN(a, 1) == TickN(TickElement(a).0, 0);
      if k >= 1 {
        StoppedStaysPut(TickElement(a).0, k - 1);
      }
    } else {
      var s := a.track.steps;
      ElementProgress(a, s);
      var last := TickN(a, s);
      TickAfter(a, s);
      if k < n {
        ElementProgress(a, k);
      } else {
        TickAfter(a, n);
        assert TickN(a, k) == TickN(TickN(a, n), k - n) by { TickNSplit(a, n, k - n); }
        StoppedStaysPut(TickN(a, n), k - n);
      }
    }
  }

  /** One more tick after `k` ticks is `k + 1` ticks. */
  lemma {:induction false} TickAfter(a: Animated, k: nat)
    ensures TickN(a, k + 1) == TickElement(TickN(a, k)).0
    decreases k
  {
    if k > 0 {
      TickAfter(TickElement(a).0, k - 1);
    }
  }

  /** Ticking `j` then `k` times is ticking `j + k` times. */
  lemma {:induction false} TickNSplit(a: Animated, j: nat, k: nat)
    ensures TickN(a, j + k) == TickN(TickN(a, j), k)
    decreases j
  {
    if j > 0 {
      TickNSplit(TickElement(a).0, j - 1, k);
    }
  }

  /** The reported count -1 of a short distance never reaches zero: such an
      element animates forever, its remaining count falling below -1. */
  lemma {:induction false} NegativeStepsNeverFinish(a: Animated, k: nat)
    requires a.node.animating && a.track.initial != a.track.end
    requires a.track.steps < 0
    ensures TickN(a, k).node.animating
    ensures TickN(a, k).track.steps == a.track.steps - k
    ensures TickN(a, k).track.counter == a.track.counter + k * a.track.stepSize
    decreases k
  {
    if k > 0 {
      var a' := TickElement(a).0;
      NegativeStepsNeverFinish(a', k - 1);
    }
  }

  // ----- The batch -------------------------------------------------------------

  /** The number of elements whose interval has been cleared. */
  function CountDone(items: seq<Animated>): (r: nat)
    ensures r <= |items|
    ensures r == 0 <== forall i :: 0 <= i < |items| ==> items[i].node.animating
  {
    if |items| == 0 then 0
    else (if items[0].node.animating then 0 else 1) + CountDone(items[1..])
  }

  /** Every element is done exactly when all of them are counted. */
  lemma {:induction false} AllDoneIff(items: seq<Animated>)
    ensures CountDone(items) == |items| <==> forall i :: 0 <= i < |items| ==> !items[i].node.animating
  {
    if |items| > 0 {
      AllDoneIff(items[1..]);
      assert forall i :: 1 <= i < |items| ==> items[i] == items[1..][i - 1];
    }
  }

  /** Stopping one running element adds one to the count; any other change
      that keeps every element's activity leaves it alone. */
  lemma {:induction false} CountDoneUpdate(items: seq<Animated>, i: nat, a: Animated)
    requires i < |items|
    ensures items[i].node.animating && !a.node.animating ==>
      CountDone(items[i := a]) == CountDone(items) + 1
    ensures items[i].node.animating == a.node.animating ==>
      CountDone(items[i := a]) == CountDone(items)
  {
    if i > 0 {
      CountDoneUpdate(items[1..], i - 1, a);
      assert items[i := a][1..] == items[1..][i - 1 := a];
    } else {
      assert items[i := a][1..] == items[1..];
    }
  }

  /** One tick of element `i`'s interval within its batch. A terminal tick
      increments the shared counter, then invokes the callback if the counter
      has reached the element count. */
  function Tick(b: Batch, i: nat): (r: Batch)
    requires i < |b.items|
    ensures |r.items| == |b.items| && r.expected == b.expected && r.property == b.property
    ensures r.items[i] == TickElement(b.items[i]).0
    ensures forall j :: 0 <= j < |b.items| && j != i ==> r.items[j] == b.items[j]
    ensures r.completed == b.completed + (if TickElement(b.items[i]).1 then 1 else 0)
    ensures r.callbacks == b.callbacks + (if TickElement(b.items[i]).1 && r.completed >= b.expected then 1 else 0)
  {
    var (a, terminal) := TickElement(b.items[i]);
    var count := if terminal then b.completed + 1 else b.completed;
    b.(items := b.items[i := a],
       completed := count,
       callbacks := if terminal && count >= b.expected then b.callbacks + 1 else b.callbacks)
  }

  /** The schedule names only elements of the batch. */
  predicate InBatch(b: Batch, schedule: seq<nat>)
  {
    forall k :: 0 <= k < |schedule| ==> schedule[k] < |b.items|
  }

  /** The batch after its timers fire in the order `schedule` gives. */
  function Play(b: Batch, schedule: seq<nat>): (r: Batch)
    requires InBatch(b, schedule)
    ensures |r.items| == |b.items| && r.expected == b.expected
    decreases |schedule|
  {
    if |schedule| == 0 then b
    else Play(Tick(b, schedule[0]), schedule[1..])
  }

  /** How often element `i` fires in a schedule. */
  function Occurrences(schedule: seq<nat>, i: nat): (r: nat)
    ensures r <= |schedule|
  {
    if |schedule| == 0 then 0
    else (if schedule[0] == i then 1 else 0) + Occurrences(schedule[1..], i)
  }

  /** The counter invariant: the counter is the number of finished elements,
      and the callback has run once if all are finished and never otherwise. */
  ghost predicate Consistent(b: Batch)
  {
    && |b.items| > 0
    && b.expected == |b.items|
    && b.completed == CountDone(b.items)
    && b.callbacks == (if b.completed == b.expected then 1 else 0)
  }

  /** A fresh batch is consistent. */
  lemma FreshIsConsistent(b: Batch)
    requires Fresh(b)
    ensures Consistent(b)
  {
  }

  /** Every tick keeps the counter invariant: the callback fires on the tick
      that finishes the last element, and on no other. */
  lemma TickKeepsConsistent(b: Batch, i: nat)
    requires Consistent(b) && i < |b.items|
    ensures Consistent(Tick(b, i))
    ensures Tick(b, i).callbacks > b.callbacks <==>
      TickElement(b.items[i]).1 && CountDone(b.items) + 1 == |b.items|
  {
    var (a, terminal) := TickElement(b.items[i]);
    CountDoneUpdate(b.items, i, a);
    if terminal {
      // the element was running, so not every element was done before
      AllDoneIff(b.items);
    }
  }

  /** Whatever the interleaving, the counter stays the number of finished
      elements and the callback runs at most once, exactly when all are done;
      each element is where its own ticks alone put it. */
  lemma {:induction false} PlayKeepsConsistent(b: Batch, schedule: seq<nat>)
    requires Consistent(b) && InBatch(b, schedule)
    ensures var r := Play(b, schedule);
      && Consistent(r)
      && r.callbacks <= 1
      && (r.callbacks == 1 <==> forall i :: 0 <= i < |r.items| ==> !r.items[i].node.animating)
      && forall i :: 0 <= i < |b.items| ==> r.items[i] == TickN(b.items[i], Occurrences(schedule, i))
    decreases |schedule|
  {
    var r := Play(b, schedule);
    if |schedule| == 0 {
      AllDoneIff(b.items);
    } else {
      var b' := Tick(b, schedule[0]);
      TickKeepsConsistent(b, schedule[0]);
      PlayKeepsConsistent(b', schedule[1..]);
      forall i | 0 <= i < |b.items|
        ensures r.items[i] == TickN(b.items[i], Occurrences(schedule, i))
      {
        if i == schedule[0] {
          assert Occurrences(schedule, i) == 1 + Occurrences(schedule[1..], i);
        } else {
          assert Occurrences(schedule, i) == Occurrences(schedule[1..], i);
        }
      }
    }
  }

  /** A batch whose elements can all finish completes under every schedule
      that fires each element often enough: the counter reaches the element
      count and the callback has run exactly once. */
  lemma BatchCompletes(b: Batch, schedule: seq<nat>)
    requires Fresh(b) && InBatch(b, schedule)
    requires forall i :: 0 <= i < |b.items| ==>
      b.items[i].track.initial == b.items[i].track.end || b.items[i].track.steps >= 0
    requires forall i :: 0 <= i < |b.items| ==> Occurrences(schedule, i) >= TicksToFinish(b.items[i].track)
    ensures Play(b, schedule).completed == b.expected
    ensures Play(b, schedule).callbacks == 1
  {
    var r := Play(b, schedule);
    PlayKeepsConsistent(b, schedule);
    forall i | 0 <= i < |b.items|
      ensures !r.items[i].node.animating
    {
      ElementFinishes(b.items[i], Occurrences(schedule, i));
    }
    AllDoneIff(r.items);
  }

  /** A batch holding an element that can never finish never invokes its
      callback, whatever the schedule. */
  lemma BatchStalls(b: Batch, schedule: seq<nat>, i: nat)
    requires Fresh(b) && InBatch(b, schedule) && i < |b.items|
    requires b.items[i].track.initial != b.items[i].track.end && b.items[i].track.steps < 0
    ensures Play(b, schedule).callbacks == 0
    ensures Play(b, schedule).completed < b.expected
  {
    PlayKeepsConsistent(b, schedule);
    NegativeStepsNeverFinish(b.items[i], Occurrences(schedule, i));
  }

  /** Under any interleaving, an element of a `Run` batch that has fired `k`
      times, `k` at most its reported step count, is still animating at the
      initial size plus `k` steps, with `k` fewer steps to go. */
  lemma RunTrajectory(targets: Targets, endSize: Size, property: string, speed: Option<real>,
                      schedule: seq<nat>, i: nat)
    requires i < |Elements(targets)|
    requires forall k :: 0 <= k < |schedule| ==> schedule[k] < |Elements(targets)|
    ensures var p := Elements(targets)[i];
      var end := if endSize.Auto? then p.natural else endSize.px;
      var spec := Calculate(p.computed, end, DefaultSpeed(speed));
      var k := Occurrences(schedule, i);
      var a := Play(Run(targets, endSize, property, speed).value, schedule).items[i];
      end != p.computed && k <= spec.steps ==>
        && a.node.animating
        && a.track.counter == p.computed + k * spec.stepSize
        && a.track.steps == spec.steps - k
  {
    var b := Run(targets, endSize, property, speed).value;
    FreshIsConsistent(b);
    PlayKeepsConsistent(b, schedule);
    if b.items[i].track.initial != b.items[i].track.end && Occurrences(schedule, i) <= b.items[i].track.steps {
      ElementProgress(b.items[i], Occurrences(schedule, i));
    }
  }

  // ----- Started elements ------------------------------------------------------

  /** What `Run` sets before the first tick: a zero distance opens, otherwise
      the state follows the direction of travel, and nothing is ever left
      without a state. */
  lemma StartedState(p: Probe, endSize: Size, speed: real)
    requires speed > 0.0
    ensures var end := if endSize.Auto? then p.natural else endSize.px;
      var a := Start(p, endSize, speed).value;
      && a.node.animating
      && (a.node.toggle == Opening <==> end >= p.computed)
      && (a.node.toggle == Closing <==> end < p.computed)
  {
    var end := if endSize.Auto? then p.natural else endSize.px;
    StepFollowsDistance(p.computed, end, speed);
  }

  /** Where the last intermediate write of the terminal tick lands, just
      before the snap to the end size: exactly at the end after unit steps,
      short of it when opening and past it when closing after coarse steps,
      in both cases by less than one step. */
  lemma LastWriteBeforeSnap(p: Probe, endSize: Size, speed: real)
    requires speed > 0.0
    ensures var end := if endSize.Auto? then p.natural else endSize.px;
      var a := Start(p, endSize, speed).value;
      var last := TickN(a, TicksToFinish(a.track)).track.counter;
      var m := Abs(a.track.stepSize);
      end != p.computed && a.track.steps >= 0 ==>
        && (!Corrects(end - p.computed, speed) ==> last == end)
        && end - m < last <= end
  {
    var end := if endSize.Auto? then p.natural else endSize.px;
    var a := Start(p, endSize, speed).value;
    if end != p.computed && a.track.steps >= 0 {
      ElementFinishes(a, TicksToFinish(a.track));
      TravelEndsNearTarget(p.computed, end, speed);
    }
  }
}

=== FILE: shared_closure.dfy ===
/**
 The batch of `Run` as the code is written. The closure each timer runs
 refers to `element`, `initialSize`, `endSize`, `animationSpecs` and
 `iterateCounter`, which are `var`s of the whole function rather than of one
 loop iteration. The loop finishes before any timer fires, so every timer
 of a batch sees the last iteration's values. Any live timer therefore
 advances one shared counter by the last element's step, writes and stops
 only the last element, and uses up the last element's steps. The timers of
 the other elements are never cleared.

 For a batch of one element this is exactly the per-element model of
 module `Animation` (`OneElementAgrees`).
 */
module SharedClosure {
  import opened SpecCalculator
  import opened Animation

  /** A `Run` batch as written: each element's node (its own interval handle
      included), the one set of closure variables all timers share, the
      counter on the first element, the element count, how often the callback
      has run, and the property. */
  datatype SharedBatch = SharedBatch(
    nodes: seq<Node>, shared: Track, completed: nat, expected: nat, callbacks: nat, property: string)

  /** `Run` as written. The loop stops, measures, states and starts every
      element in turn; when it ends, the closure variables hold the last
      element's values. */
  function RunShared(targets: Targets, endSize: Size, property: string, speed: Option<real>): (r: Result<SharedBatch, Error>)
    ensures r.Err? <==> |Elements(targets)| == 0
    ensures r.Ok? ==>
      var ps := Elements(targets);
      && |r.value.nodes| == |ps| == r.value.expected
      && r.value.completed == 0 && r.value.callbacks == 0 && r.value.property == property
      && r.value.shared == Start(ps[|ps| - 1], endSize, DefaultSpeed(speed)).value.track
      && forall i :: 0 <= i < |ps| ==> r.value.nodes[i] == Start(ps[i], endSize, DefaultSpeed(speed)).value.node
  {
    var ps := Elements(targets);
    if |ps| == 0 then Err(NoElements)
    else
      match StartAll(ps, endSize, DefaultSpeed(speed))
      case Err(e) => Err(e)
      case Ok(items) =>
        Ok(SharedBatch(seq(|items|, i requires 0 <= i < |items| => items[i].node),
                       items[|items| - 1].track, 0, |ps|, 0, property))
  }

  /** The batch has elements, and the counter target is their number. */
  predicate WellFormed(b: SharedBatch)
  {
    |b.nodes| > 0 && b.expected == |b.nodes|
  }

  /** One tick of element `i`'s interval. If it is still live, it runs the
      shared closure on the last element. */
  function TickShared(b: SharedBatch, i: nat): (r: SharedBatch)
    requires WellFormed(b) && i < |b.nodes|
    ensures WellFormed(r) && |r.nodes| == |b.nodes| && r.expected == b.expected && r.property == b.property
    ensures forall j :: 0 <= j < |b.nodes| - 1 ==> r.nodes[j] == b.nodes[j]
    ensures !b.nodes[i].animating ==> r == b
    ensures b.nodes[i].animating ==>
      var last := |b.nodes| - 1;
      var (n, t, terminal) := ClosureBody(b.nodes[last], b.shared);
      && r.nodes[last] == n && r.shared == t
      && r.completed == b.completed + (if terminal then 1 else 0)
      && r.callbacks == b.callbacks + (if terminal && r.completed >= b.expected then 1 else 0)
  {
    if !b.nodes[i].animating then b
    else
      var last := |b.nodes| - 1;
      var (n, t, terminal) := ClosureBody(b.nodes[last], b.shared);
      var count := if terminal then b.completed + 1 else b.completed;
      b.(nodes := b.nodes[last := n],
         shared := t,
         completed := count,
         callbacks := if terminal && count >= b.expected then b.callbacks + 1 else b.callbacks)
  }

  /** The schedule names only elements of the batch. */
  predicate InShared(b: SharedBatch, schedule: seq<nat>)
  {
    forall k :: 0 <= k < |schedule| ==> schedule[k] < |b.nodes|
  }

  /** The batch after its timers fire in the order `schedule` gives. */
  function PlayShared(b: SharedBatch, schedule: seq<nat>): (r: SharedBatch)
    requires WellFormed(b) && InShared(b, schedule)
    ensures WellFormed(r) && |r.nodes| == |b.nodes|
    decreases |schedule|
  {
    if |schedule| == 0 then b
    else PlayShared(TickShared(b, schedule[0]), schedule[1..])
  }

  /** Playing two schedules in turn is playing their concatenation. */
  lemma {:induction false} PlayAppend(b: SharedBatch, s1: seq<nat>, s2: seq<nat>)
    requires WellFormed(b) && InShared(b, s1) && InShared(b, s2)
    ensures InShared(b, s1 + s2)
    ensures PlayShared(b, s1 + s2) == PlayShared(PlayShared(b, s1), s2)
    decreases |s1|
  {
    if |s1| > 0 {
      assert (s1 + s2)[0] == s1[0];
      assert (s1 + s2)[1..] == s1[1..] + s2;
      PlayAppend(TickShared(b, s1[0]), s1[1..], s2);
    } else {
      assert s1 + s2 == s2;
    }
  }

  /** `k` ticks of element `i`. */
  function Repeat(i: nat, k: nat): (r: seq<nat>)
    ensures |r| == k && forall j :: 0 <= j < k ==> r[j] == i
  {
    seq(k, _ => i)
  }

  /** How many callbacks a counter value has produced: one for each terminal
      tick that found the counter at or above the element count. */
  function Excess(completed: nat, expected: nat): nat
  {
    if completed >= expected && expected > 0 then completed - expected + 1 else 0
  }

  // ----- What the code does, whatever the interleaving -------------------------

  /** Under any schedule, no element but the last is ever written, stopped or
      reset, and the callback has run once for every terminal tick that found
      the counter at the element count or above. */
  lemma {:induction false} OthersUntouched(b: SharedBatch, schedule: seq<nat>)
    requires WellFormed(b) && InShared(b, schedule)
    requires b.callbacks == Excess(b.completed, b.expected)
    ensures var r := PlayShared(b, schedule);
      && (forall j :: 0 <= j < |b.nodes| - 1 ==> r.nodes[j] == b.nodes[j])
      && r.callbacks == Excess(r.completed, r.expected)
      && r.completed >= b.completed
    decreases |schedule|
  {
    if |schedule| > 0 {
      OthersUntouched(TickShared(b, schedule[0]), schedule[1..]);
    }
  }

  /** In a batch `Run` starts, every element but the last stays animating,
      keeps the state `Run` gave it and is never written, under any schedule. */
  lemma RunLeavesOthersAnimating(targets: Targets, endSize: Size, property: string,
                                 speed: Option<real>, schedule: seq<nat>, j: nat)
    requires j + 1 < |Elements(targets)|
    requires forall k :: 0 <= k < |schedule| ==> schedule[k] < |Elements(targets)|
    ensures var p := Elements(targets)[j];
      var r := PlayShared(RunShared(targets, endSize, property, speed).value, schedule);
      && r.nodes[j].animating
      && r.nodes[j].toggle != Idle
      && r.nodes[j].style == p.node.style
  {
    var b := RunShared(targets, endSize, property, speed).value;
    OthersUntouched(b, schedule);
  }

  /** Once the shared closure is at its end, each tick of an element other
      than the last, whose interval is never cleared, counts again, and every
      count at or past the element count calls back again. */
  lemma {:induction false} CallbackEveryTick(b: SharedBatch, i: nat, k: nat)
    requires WellFormed(b) && i + 1 < |b.nodes| && b.nodes[i].animating
    requires AtEnd(b.shared)
    requires b.callbacks == Excess(b.completed, b.expected)
    ensures var r := PlayShared(b, Repeat(i, k));
      && r.completed == b.completed + k
      && r.callbacks == Excess(b.completed + k, b.expected)
      && AtEnd(r.shared)
    decreases k
  {
    if k > 0 {
      var b' := TickShared(b, i);
      assert Repeat(i, k)[1..] == Repeat(i, k - 1);
      CallbackEveryTick(b', i, k - 1);
    }
  }

  /** The last element on its own: up to its reported count its ticks move the
      shared closure as its own interval would, without counting. */
  lemma {:induction false} LastAlone(b: SharedBatch, k: nat)
    requires WellFormed(b)
    requires var last := |b.nodes| - 1;
      b.nodes[last].animating && b.shared.initial != b.shared.end && k <= b.shared.steps
    ensures var last := |b.nodes| - 1;
      var a := TickN(Animated(b.nodes[last], b.shared), k);
      PlayShared(b, Repeat(last, k)) == b.(nodes := b.nodes[last := a.node], shared := a.track)
    decreases k
  {
    var last := |b.nodes| - 1;
    if k > 0 {
      var b' := TickShared(b, last);
      assert Repeat(last, k)[1..] == Repeat(last, k - 1);
      assert b'.nodes[last := TickN(Animated(b'.nodes[last], b'.shared), k - 1).node]
          == b.nodes[last := TickN(Animated(b'.nodes[last], b'.shared), k - 1).node];
      LastAlone(b', k - 1);
    } else {
      assert b.nodes[last := b.nodes[last]] == b.nodes;
    }
  }

  /** Ticks of the last element until its own interval would end: the shared
      closure reaches its end and the counter has counted once. */
  lemma LastFinishes(b: SharedBatch)
    requires WellFormed(b) && b.completed == 0 && b.callbacks == 0
    requires var last := |b.nodes| - 1;
      b.nodes[last].animating && (b.shared.initial == b.shared.end || b.shared.steps >= 0)
    ensures var r := PlayShared(b, Repeat(|b.nodes| - 1, TicksToFinish(b.shared)));
      && r.completed == 1
      && r.callbacks == Excess(1, b.expected)
      && AtEnd(r.shared)
      && !r.nodes[|b.nodes| - 1].animating
  {
    var last := |b.nodes| - 1;
    var n := TicksToFinish(b.shared);
    if b.shared.initial == b.shared.end {
      assert Repeat(last, 1)[1..] == [];
    } else {
      var s := b.shared.steps;
      LastAlone(b, s);
      var mid := PlayShared(b, Repeat(last, s));
      ElementProgress(Animated(b.nodes[last], b.shared), s);
      PlayAppend(b, Repeat(last, s), Repeat(last, 1));
      assert Repeat(last, s) + Repeat(last, 1) == Repeat(last, n);
      assert Repeat(last, 1)[1..] == [];
    }
  }

  /** For two or more elements: once the last element's own ticks have ended
      the shared closure, `m` further ticks of the first element count `m`
      more times and call back for every count at or past the element count,
      so the callback runs more than once as soon as `m` reaches the element
      count; and the first element is never written, stopped or reset. */
  lemma CallbackRepeats(b: SharedBatch, m: nat)
    requires WellFormed(b) && |b.nodes| >= 2 && b.completed == 0 && b.callbacks == 0
    requires forall j :: 0 <= j < |b.nodes| ==> b.nodes[j].animating
    requires b.shared.initial == b.shared.end || b.shared.steps >= 0
    ensures var schedule := Repeat(|b.nodes| - 1, TicksToFinish(b.shared)) + Repeat(0, m);
      InShared(b, schedule) &&
      var r := PlayShared(b, schedule);
      && r.completed == 1 + m
      && r.callbacks == Excess(1 + m, b.expected)
      && (m >= b.expected ==> r.callbacks >= 2)
      && r.nodes[0] == b.nodes[0]
  {
    var last := |b.nodes| - 1;
    var first := Repeat(last, TicksToFinish(b.shared));
    LastFinishes(b);
    PlayAppend(b, first, Repeat(0, m));
    var mid := PlayShared(b, first);
    OthersUntouched(b, first);
    CallbackEveryTick(mid, 0, m);
    OthersUntouched(mid, Repeat(0, m));
  }

  /** The leftover intervals outlive their batch. Once the shared closure has
      ended, a tick of another element's uncleared interval stops the last
      element, snaps it to the old batch's final style and resets its state,
      even when a later `Run` or `Toggle` has restarted it in the meantime:
      the restarted animation is cut off. */
  lemma LeftoverTickStopsRestart(b: SharedBatch, restarted: Node, i: nat)
    requires WellFormed(b) && i + 1 < |b.nodes| && b.nodes[i].animating
    requires AtEnd(b.shared) && restarted.animating
    ensures var last := |b.nodes| - 1;
      var r := TickShared(b.(nodes := b.nodes[last := restarted]), i);
      && !r.nodes[last].animating
      && r.nodes[last].toggle == Idle
      && r.nodes[last].style == FinalStyle(b.shared)
  {
  }

  /** A batch whose last element reports a negative count never reaches the
      end, whatever the other elements report: no tick ever counts and the
      callback never runs. */
  lemma {:induction false} SharedStalls(b: SharedBatch, schedule: seq<nat>)
    requires WellFormed(b) && InShared(b, schedule)
    requires b.shared.initial != b.shared.end && b.shared.steps < 0
    ensures PlayShared(b, schedule).completed == b.completed
    ensures PlayShared(b, schedule).callbacks == b.callbacks
    decreases |schedule|
  {
    if |schedule| > 0 {
      SharedStalls(TickShared(b, schedule[0]), schedule[1..]);
    }
  }

  /** Two elements opening from 0 px to 100 px in 250 ms share 7 px steps
      with 13 steps reported. After 14 ticks of the second element and 2 of
      the first, the callback has run twice, and the first element is still
      animating, still `'opening'` and was never written. */
  lemma TwoElementsCallBackTwice()
    ensures var p := Probe(Node(Unset, Idle, false), 0, 0);
      var b := RunShared(Many([p, p]), Fixed(100), "height", Some(250.0)).value;
      var schedule := Repeat(1, 14) + Repeat(0, 2);
      InShared(b, schedule) &&
      var r := PlayShared(b, schedule);
      && r.callbacks == 2
      && r.nodes[0] == Node(Unset, Opening, true)
  {
    var p := Probe(Node(Unset, Idle, false), 0, 0);
    var b := RunShared(Many([p, p]), Fixed(100), "height", Some(250.0)).value;
    OpeningHundredPixels();
    assert b.shared == Track(0, 100, false, 7, 13, 0);
    assert b.nodes[0] == Node(Unset, Opening, true);
    assert TicksToFinish(b.shared) == 14;
    CallbackRepeats(b, 2);
  }

  // ----- One element -----------------------------------------------------------

  /** A one-element shared batch read as a per-element batch. */
  function AsBatch(b: SharedBatch): (r: Batch)
    requires |b.nodes| == 1
    ensures |r.items| == 1 && r.items[0] == Animated(b.nodes[0], b.shared)
  {
    Batch([Animated(b.nodes[0], b.shared)], b.completed, b.expected, b.callbacks, b.property)
  }

  /** With one element the shared closure is that element's own, so the code
      as written and the per-element model agree tick for tick, under any
      schedule. */
  lemma {:induction false} OneElementAgrees(b: SharedBatch, schedule: seq<nat>)
    requires WellFormed(b) && |b.nodes| == 1 && InShared(b, schedule)
    ensures InBatch(AsBatch(b), schedule)
    ensures AsBatch(PlayShared(b, schedule)) == Play(AsBatch(b), schedule)
    decreases |schedule|
  {
    if |schedule| > 0 {
      assert AsBatch(TickShared(b, schedule[0])) == Tick(AsBatch(b), schedule[0]);
      OneElementAgrees(TickShared(b, schedule[0]), schedule[1..]);
    }
  }

  /** `Run` on a single element yields the same batch in both models. */
  lemma OneElementRunAgrees(p: Probe, endSize: Size, property: string, speed: Option<real>)
    ensures RunShared(One(p), endSize, property, speed).Ok?
    ensures AsBatch(RunShared(One(p), endSize, property, speed).value)
      == Run(One(p), endSize, property, speed).value
  {
  }
}

=== FILE: spec_calculator.dfy ===
/**
 The animation-spec calculator of the UIKIT animate module: from an initial
 size, an end size and a duration it derives how many pixels one timer tick
 moves (`stepSize`), how many ticks remain after the first (`steps`) and the
 timer period (`interval`).

 JavaScript numbers are modelled as exact reals; `Math.round(x)` is
 `(x + 0.5).Floor` and `Math.floor(x)` is `x.Floor`. A division by zero, which
 JavaScript answers with an infinity, is modelled as `Interval.Infinite`.
 */
module SpecCalculator {

  /** The 60 fps floor: the shortest timer period the calculator aims for, 50/3 ms. */
  const FrameFloor: real := 50.0 / 3.0

  function Abs(x: int): (r: nat)
    ensures r == x || r == -x
  {
    if x < 0 then -x else x
  }

  function AbsReal(x: real): (r: real)
    ensures r >= 0.0 && (r == x || r == -x)
  {
    if x < 0.0 then -x else x
  }

  /** `Math.floor`: the largest integer not above `x`. */
  function Floor(x: real): (r: int)
    ensures r as real <= x < r as real + 1.0
  {
    x.Floor
  }

  /** `Math.round`: the nearest integer, halves rounded towards +infinity. */
  function Round(x: real): (r: int)
    ensures x - 0.5 < r as real <= x + 0.5
  {
    (x + 0.5).Floor
  }

  /** A timer period in milliseconds, or the infinity a zero step count yields. */
  datatype Interval = Millis(ms: real) | Infinite

  /** The object `CalculateAnimationSpecs` returns. `steps` is the raw step
      count minus one, so it can be -1. */
  datatype AnimationSpec = AnimationSpec(stepSize: int, steps: int, interval: Interval)

  /** `speed / steps`, where a zero step count gives an infinite period. */
  function IntervalFor(speed: real, steps: nat): (r: Interval)
    ensures r.Infinite? <==> steps == 0
    ensures r.Millis? ==> r.ms * steps as real == speed
  {
    if steps == 0 then Infinite else Millis(speed / steps as real)
  }

  /** The period one-pixel steps would give is under the 60 fps floor, so the
      calculator recomputes the step as round((50/3) / period), which can
      still be 1 (`CorrectionKeepsUnitStep`). A zero distance gives an
      infinite period, which is never under the floor. */
  predicate Corrects(distance: int, speed: real)
  {
    distance != 0 && AbsReal(speed / Abs(distance) as real) < FrameFloor
  }

  /** A positive `a` divided by a `b` of smaller magnitude has magnitude above one,
      with the sign of `b`. */
  lemma QuotientExceedsOne(a: real, b: real)
    requires a > 0.0 && b != 0.0 && AbsReal(b) < a
    ensures b > 0.0 ==> a / b > 1.0
    ensures b < 0.0 ==> a / b < -1.0
  {
  }

  /** The coarse step magnitude `Math.round((50/3) / intervalTime)`, taken
      before the distance's sign is reapplied. It is never zero; for a
      positive duration it is at least one. */
  function CoarseStep(distance: int, speed: real): (m: int)
    requires speed != 0.0 && Corrects(distance, speed)
    ensures m != 0
    ensures speed > 0.0 ==> m >= 1
    ensures speed < 0.0 ==> m <= -1
  {
    var unitInterval := speed / Abs(distance) as real;
    assert unitInterval * Abs(distance) as real == speed;
    assert unitInterval != 0.0;
    QuotientExceedsOne(FrameFloor, unitInterval);
    Round(FrameFloor / unitInterval)
  }

  /** `CalculateAnimationSpecs(initialSize, endSize, speed)`. */
  function Calculate(initialSize: int, endSize: int, speed: real): (s: AnimationSpec)
    requires speed != 0.0
    ensures s.stepSize != 0
    ensures s.steps >= -1
  {
    var distance := endSize - initialSize;
    if Corrects(distance, speed) then
      var coarse := CoarseStep(distance, speed);
      var coarseSteps := Abs(Floor(distance as real / coarse as real));
      AnimationSpec(if distance < 0 then -coarse else coarse, coarseSteps - 1, IntervalFor(speed, coarseSteps))
    else
      AnimationSpec(if distance < 0 then -1 else 1, Abs(distance) - 1, IntervalFor(speed, Abs(distance)))
  }

  /** The step count before the `- 1` of the returned object. */
  function RawSteps(s: AnimationSpec): int
  {
    s.steps + 1
  }

  /** Multiplying by a positive factor preserves order, so it can be cancelled. */
  lemma CancelPositiveFactor(x: real, y: real, m: real)
    requires m > 0.0
    ensures x * m <= y * m ==> x <= y
    ensures x * m < y * m ==> x < y
  {
  }

  /** Two integers less than one apart are equal. */
  lemma IntegersWithinOne(f: int, q: int)
    requires f as real < q as real + 1.0 && q as real < f as real + 1.0
    ensures f == q
  {
  }

  /** The floor is the one integer at most `x` and within one of it. */
  lemma FloorUnique(x: real, q: int)
    requires q as real <= x < q as real + 1.0
    ensures Floor(x) == q
  {
    IntegersWithinOne(Floor(x), q);
  }

  /** Dafny's integer quotient lies within one below the real quotient. */
  lemma QuotientBounds(d: int, m: int)
    requires m > 0
    ensures (d / m) as real <= d as real / m as real < (d / m) as real + 1.0
  {
    var q := d / m;
    var x := d as real / m as real;
    assert x * m as real == d as real;
    assert (q * m) as real == q as real * m as real;
    assert ((q + 1) * m) as real == (q as real + 1.0) * m as real;
    CancelPositiveFactor(q as real, x, m as real);
    CancelPositiveFactor(x, q as real + 1.0, m as real);
  }

  /** For a positive divisor, the real quotient's floor is Dafny's integer division. */
  lemma FloorOfQuotient(d: int, m: int)
    requires m > 0
    ensures Floor(d as real / m as real) == d / m
  {
    QuotientBounds(d, m);
    FloorUnique(d as real / m as real, d / m);
  }

  // ----- Properties of the calculator ------------------------------------------

  /** The step points the way the element has to travel; a zero distance
      yields the unit step +1, no raw steps and an infinite period. */
  lemma StepFollowsDistance(initialSize: int, endSize: int, speed: real)
    requires speed > 0.0
    ensures var s := Calculate(initialSize, endSize, speed);
      && (s.stepSize > 0 <==> endSize >= initialSize)
      && (s.stepSize < 0 <==> endSize < initialSize)
    ensures endSize == initialSize ==>
      Calculate(initialSize, endSize, speed) == AnimationSpec(1, -1, Infinite)
  {
  }

  /** Without the floor correction the step is one pixel and the raw step
      count is the distance, so raw steps times step size is the distance,
      and the period is at least the floor. */
  lemma UnitStepWithoutCorrection(initialSize: int, endSize: int, speed: real)
    requires speed > 0.0
    requires endSize != initialSize && !Corrects(endSize - initialSize, speed)
    ensures var s := Calculate(initialSize, endSize, speed);
      && Abs(s.stepSize) == 1
      && RawSteps(s) == Abs(endSize - initialSize)
      && RawSteps(s) * s.stepSize == endSize - initialSize
      && s.interval.Millis? && s.interval.ms >= FrameFloor
  {
    var d := endSize - initialSize;
    var s := Calculate(initialSize, endSize, speed);
    assert s.interval == Millis(speed / Abs(d) as real);
  }

  /** With the floor correction the step magnitude is the rounded ratio of the
      floor to the unit-step period, at least one, and the raw step count is
      the magnitude of the floored quotient of distance by step. */
  lemma CoarseStepWithCorrection(initialSize: int, endSize: int, speed: real)
    requires speed > 0.0 && Corrects(endSize - initialSize, speed)
    ensures var d := endSize - initialSize;
      var s := Calculate(initialSize, endSize, speed);
      && Abs(s.stepSize) == Round(FrameFloor / (speed / Abs(d) as real))
      && Abs(s.stepSize) >= 1
      && RawSteps(s) == Abs(Floor(d as real / Abs(s.stepSize) as real))
      && s.interval == IntervalFor(speed, RawSteps(s))
  {
  }

  /** After correction, the raw steps undershoot a positive distance and
      overshoot a negative one, each by less than one step. */
  lemma CorrectedStepsBracketDistance(initialSize: int, endSize: int, speed: real)
    requires speed > 0.0 && Corrects(endSize - initialSize, speed)
    ensures var d := endSize - initialSize;
      var s := Calculate(initialSize, endSize, speed);
      var travelled := RawSteps(s) * Abs(s.stepSize);
      && (d > 0 ==> travelled <= d < travelled + Abs(s.stepSize))
      && (d < 0 ==> Abs(d) <= travelled < Abs(d) + Abs(s.stepSize))
  {
    var d := endSize - initialSize;
    var s := Calculate(initialSize, endSize, speed);
    var m := CoarseStep(d, speed);
    assert Abs(s.stepSize) == m;
    FloorOfQuotient(d, m);
    var q := d / m;
    assert q * m <= d < q * m + m;
    if d > 0 {
      assert q >= 0;
      assert RawSteps(s) == q;
    } else {
      assert q * m < 0;
      assert q < 0;
      assert RawSteps(s) == -q;
      assert RawSteps(s) * m == -(q * m);
    }
  }

  /** The reported step count is -1 for a nonzero distance exactly when the
      correction rounds a positive distance down to zero steps, that is when
      the distance is shorter than the coarse step. */
  lemma NoRawStepsIff(initialSize: int, endSize: int, speed: real)
    requires speed > 0.0 && endSize != initialSize
    ensures var s := Calculate(initialSize, endSize, speed);
      s.steps == -1 <==>
        Corrects(endSize - initialSize, speed) && 0 < endSize - initialSize < s.stepSize
  {
    var d := endSize - initialSize;
    var s := Calculate(initialSize, endSize, speed);
    if Corrects(d, speed) {
      CorrectedStepsBracketDistance(initialSize, endSize, speed);
      CoarseStepWithCorrection(initialSize, endSize, speed);
      var m := Abs(s.stepSize);
      assert d > 0 ==> s.stepSize == m;
      assert RawSteps(s) >= 0;
      NoStepsOnlyShort(d, RawSteps(s), m);
    } else {
      UnitStepWithoutCorrection(initialSize, endSize, speed);
      assert RawSteps(s) == Abs(d);
    }
  }

  /** The integer core of `NoRawStepsIff`: a non-negative step count that
      brackets the distance as the corrected one does is zero exactly for a
      positive distance shorter than the step. */
  lemma NoStepsOnlyShort(d: int, raw: int, m: int)
    requires d != 0 && raw >= 0 && m >= 1
    requires d > 0 ==> raw * m <= d < raw * m + m
    requires d < 0 ==> -d <= raw * m
    ensures raw == 0 <==> 0 < d < m
  {
    if raw >= 1 {
      assert raw * m >= m;
    }
  }

  /** Where `RawSteps` steps from the initial size land: on the end size after
      unit steps, otherwise less than one step short of it when opening and
      less than one step past it when closing. */
  lemma TravelEndsNearTarget(initialSize: int, endSize: int, speed: real)
    requires speed > 0.0 && endSize != initialSize
    ensures var s := Calculate(initialSize, endSize, speed);
      var last := initialSize + RawSteps(s) * s.stepSize;
      && (!Corrects(endSize - initialSize, speed) ==> last == endSize)
      && endSize - Abs(s.stepSize) < last <= endSize
  {
    var d := endSize - initialSize;
    var s := Calculate(initialSize, endSize, speed);
    var m: int := Abs(s.stepSize);
    if Corrects(d, speed) {
      CorrectedStepsBracketDistance(initialSize, endSize, speed);
      if d < 0 {
        assert s.stepSize == -m;
        assert RawSteps(s) * s.stepSize == -(RawSteps(s) * m);
      } else {
        assert s.stepSize == m;
      }
    } else {
      UnitStepWithoutCorrection(initialSize, endSize, speed);
    }
  }

  // ----- Concrete cases --------------------------------------------------------

  /** A 100 px opening in 250 ms: the unit period 2.5 ms is corrected to 7 px
      steps, 14 raw steps and a period of 250/14 ms, which clears the floor. */
  lemma OpeningHundredPixels()
    ensures Calculate(0, 100, 250.0) == AnimationSpec(7, 13, Millis(250.0 / 14.0))
    ensures 250.0 / 14.0 >= FrameFloor
  {
    assert Corrects(100, 250.0);
    assert FrameFloor / (250.0 / 100.0) == 20.0 / 3.0;
    assert Round(20.0 / 3.0) == 7;
    FloorOfQuotient(100, 7);
  }

  /** The corrected period can still fall below the floor: 36 px in 250 ms
      gives 2 px steps, 18 raw steps and 250/18 ms, about 13.9 ms. */
  lemma CorrectedIntervalBelowFloor()
    ensures Calculate(0, 36, 250.0) == AnimationSpec(2, 17, Millis(250.0 / 18.0))
    ensures 250.0 / 18.0 < FrameFloor
  {
    assert Corrects(36, 250.0);
    assert FrameFloor / (250.0 / 36.0) == 12.0 / 5.0;
    assert Round(12.0 / 5.0) == 2;
    FloorOfQuotient(36, 2);
  }

  /** The correction can round back to one-pixel steps: 10 px in 150 ms has a
      15 ms unit period, under the floor, but (50/3)/15 rounds to 1, so the
      step stays 1 px and the period 15 ms. */
  lemma CorrectionKeepsUnitStep()
    ensures Corrects(10, 150.0)
    ensures Calculate(0, 10, 150.0) == AnimationSpec(1, 9, Millis(15.0))
    ensures 15.0 < FrameFloor
  {
    assert Corrects(10, 150.0);
    assert FrameFloor / (150.0 / 10.0) == 10.0 / 9.0;
    assert Round(10.0 / 9.0) == 1;
    FloorOfQuotient(10, 1);
  }

  /** A 1 px opening in 10 ms: the correction picks a 2 px step, the floored
      step count is zero, so the reported count is -1 and the period infinite. */
  lemma ShortDistanceNoSteps()
    ensures Calculate(0, 1, 10.0) == AnimationSpec(2, -1, Infinite)
  {
    assert Corrects(1, 10.0);
    assert FrameFloor / (10.0 / 1.0) == 5.0 / 3.0;
    assert Round(5.0 / 3.0) == 2;
    FloorOfQuotient(1, 2);
  }
}

=== FILE: toggle.dfy ===
/**
 `Toggle` of the UIKIT animate module: for each element it picks the size to
 animate to, from the element's current size and its toggle state, and runs
 that element as a batch of its own.
 */
module Toggle {
  import opened Animation

  /** The exceptions `Toggle` can raise: its own, or one from `Run`. */
  datatype ToggleError =
    | CannotDetermineToggle  // the `throw` of Toggle when no direction applies
    | RunFailed(error: Error)

  /** The options `Toggle` reads; a missing option is `None`. */
  datatype ToggleOptions = ToggleOptions(
    property: Option<string>,
    speed: Option<real>,
    closeSize: Option<Size>,
    openSize: Option<Size>)

  /** `options.property || 'height'`. */
  function PropertyOf(o: ToggleOptions): (r: string)
    ensures o.property.None? || o.property.value == "" ==> r == "height"
    ensures o.property.Some? && o.property.value != "" ==> r == o.property.value
  {
    if o.property.None? || o.property.value == "" then "height" else o.property.value
  }

  /** `options.closeSize || 0`. */
  function CloseSizeOf(o: ToggleOptions): (r: Size)
    ensures o.closeSize.None? ==> r == Fixed(0)
    ensures o.closeSize.Some? ==> r == o.closeSize.value
  {
    if o.closeSize.None? then Fixed(0) else o.closeSize.value
  }

  /** `options.openSize || 'auto'`: a zero open size is falsy and so means `'auto'` too. */
  function OpenSizeOf(o: ToggleOptions): (r: Size)
    ensures o.openSize.None? || o.openSize.value == Fixed(0) ==> r == Auto
    ensures o.openSize.Some? && o.openSize.value != Fixed(0) ==> r == o.openSize.value
  {
    if o.openSize.None? || o.openSize.value == Fixed(0) then Auto else o.openSize.value
  }

  /** With no options at all, the defaulted property is the height, the
      duration 250 ms, the close size 0 and the open size `'auto'`. (The
      current size is still read through the missing `options.property`.) */
  lemma Defaults()
    ensures var o := ToggleOptions(None, None, None, None);
      && PropertyOf(o) == "height"
      && DefaultSpeed(o.speed) == 250.0
      && CloseSizeOf(o) == Fixed(0)
      && OpenSizeOf(o) == Auto
  {
  }

  /** The direction decision. The `else if` condition is the negation of the
      first one's size test, so the `throw` branch is never reached: the
      element opens exactly when it sits at its closed size or is closing, and
      closes otherwise. */
  function Target(current: int, state: ToggleState, closeSize: Size, openSize: Size): (r: Result<Size, ToggleError>)
    ensures r.Ok?
    ensures Fixed(current) == closeSize || state == Closing ==> r.value == openSize
    ensures Fixed(current) != closeSize && state != Closing ==> r.value == closeSize
  {
    if Fixed(current) == closeSize || state == Closing then Ok(openSize)
    else if Fixed(current) != closeSize || state == Opening then Ok(closeSize)
    else Err(CannotDetermineToggle)
  }

  /** The loop body of `Toggle` for one element: stop it, decide the target and
      run it as a one-element batch with the shared callback. */
  function ToggleOne(p: Probe, o: ToggleOptions): (r: Result<Batch, ToggleError>)
    ensures r.Ok?
    ensures |r.value.items| == 1 && r.value.expected == 1
  {
    var stopped := p.(node := Stop(p.node));
    match Target(p.computed, stopped.node.toggle, CloseSizeOf(o), OpenSizeOf(o))
    case Err(e) => Err(e)
    case Ok(target) =>
      match Run(One(stopped), target, PropertyOf(o), Some(DefaultSpeed(o.speed)))
      case Err(e) => Err(RunFailed(e))
      case Ok(b) => Ok(b)
  }

  /** The `for` loop of `Toggle`, one batch per element. */
  function ToggleAll(ps: seq<Probe>, o: ToggleOptions): (r: Result<seq<Batch>, ToggleError>)
    ensures r.Ok?
    ensures |r.value| == |ps|
    ensures forall i :: 0 <= i < |ps| ==> r.value[i] == ToggleOne(ps[i], o).value
  {
    if |ps| == 0 then Ok([])
    else
      match ToggleOne(ps[0], o)
      case Err(e) => Err(e)
      case Ok(b) =>
        match ToggleAll(ps[1..], o)
        case Err(e) => Err(e)
        case Ok(rest) => Ok([b] + rest)
  }

  /** `Toggle`. Unlike `Run` it accepts an empty list, starting nothing. */
  function ToggleElements(targets: Targets, o: ToggleOptions): (r: Result<seq<Batch>, ToggleError>)
    ensures r.Ok? && |r.value| == |Elements(targets)|
  {
    ToggleAll(Elements(targets), o)
  }

  /** Each element of a toggle becomes a fresh batch of one, animating toward
      the target the decision picks for it. */
  lemma ToggleBatches(targets: Targets, o: ToggleOptions)
    ensures var ps := Elements(targets);
      var bs := ToggleElements(targets, o).value;
      forall i :: 0 <= i < |ps| ==>
        && Fresh(bs[i])
        && bs[i].property == PropertyOf(o)
        && bs[i].items[0] == Start(ps[i].(node := Stop(ps[i].node)),
             Target(ps[i].computed, ps[i].node.toggle, CloseSizeOf(o), OpenSizeOf(o)).value,
             DefaultSpeed(o.speed)).value
  {
    var ps := Elements(targets);
    var bs := ToggleElements(targets, o).value;
    forall i | 0 <= i < |ps|
      ensures Fresh(bs[i])
    {
    }
  }

  /** Since every element is its own batch, the callback runs once per
      element: once its own element has finished, whatever the order of the
      ticks, and never before. */
  lemma CallbackPerElement(targets: Targets, o: ToggleOptions, i: nat, schedule: seq<nat>)
    requires i < |Elements(targets)|
    requires forall k :: 0 <= k < |schedule| ==> schedule[k] == 0
    ensures var b := ToggleElements(targets, o).value[i];
      var r := Play(b, schedule);
      && r.callbacks <= 1
      && (r.callbacks == 1 <==> !TickN(b.items[0], |schedule|).node.animating)
  {
    var b := ToggleElements(targets, o).value[i];
    ToggleBatches(targets, o);
    FreshIsConsistent(b);
    PlayKeepsConsistent(b, schedule);
    OccurrencesOfOnly(schedule);
  }

  /** In a schedule of one element's ticks, that element fires every time. */
  lemma {:induction false} OccurrencesOfOnly(schedule: seq<nat>)
    requires forall k :: 0 <= k < |schedule| ==> schedule[k] == 0
    ensures Occurrences(schedule, 0) == |schedule|
  {
    if |schedule| > 0 {
      OccurrencesOfOnly(schedule[1..]);
    }
  }

  /** Toggling a closed element opens it; once that animation has finished
      the element is idle, so toggling it again from any size other than the
      closed one closes it. */
  lemma ToggleReverses(p: Probe, o: ToggleOptions, k: nat, q: Probe)
    requires Fixed(p.computed) == CloseSizeOf(o)
    ensures Target(p.computed, p.node.toggle, CloseSizeOf(o), OpenSizeOf(o)) == Ok(OpenSizeOf(o))
    ensures var a := ToggleOne(p, o).value.items[0];
      && (a.track.initial == a.track.end || a.track.steps >= 0)
      && k >= TicksToFinish(a.track)
      && q.node == TickN(a, k).node
      && Fixed(q.computed) != CloseSizeOf(o)
      ==> Target(q.computed, q.node.toggle, CloseSizeOf(o), OpenSizeOf(o)) == Ok(CloseSizeOf(o))
  {
    var a := ToggleOne(p, o).value.items[0];
    assert a.node.animating by {
      ToggleBatches(One(p), o);
    }
    if (a.track.initial == a.track.end || a.track.steps >= 0) && k >= TicksToFinish(a.track) {
      ElementFinishes(a, k);
    }
  }
}
